=== FILE: README.md ===
# Batch prefix/suffix rename — a Dafny model

This project models the rename engine of a small desktop tool. The tool is a
Tauri application that renames a batch of files or folders in one operation.
The engine is the command `rename_files_with_prefix_suffix`. It takes a list
of paths, a prefix and a suffix. For each path, in order, it:

1. splits the path into its parent directory and its file name;
2. builds the new file name: `prefix + stem + suffix + extension`, where the
   extension starts at the last `.` of the name. A name without a dot becomes
   `prefix + name + suffix`;
3. asks the file system to rename the old path to `parent.join(new name)`.
   A new name that starts with `/` is absolute and replaces the parent.

Every path produces exactly one outcome: either the `renamed` counter goes
up, or one error string is appended. A failure never stops the batch. At
the end, `success` is false only when there were errors and no rename
succeeded.

The project has four modules:

- `Strings` (strings.dfy): `Option` and `LastIndexOf`, which models Rust's
  `str::rfind` with a single-character pattern.
- `FileName` (file_name.dfy): the naming rule (`NewFileName`), the stem and
  extension of a name, and an inverse (`OriginalFileName`). The inverse
  proves that the rule loses no information.
- `PathModel` (path_model.dfy): a simplified `Path::parent`, `Path::file_name`
  and `join`. A path is cut after its last `/`. It has no file-name component
  when the text after that cut is empty, `.` or `..`. Joining appends a
  relative name to the directory part; an absolute name replaces it.
- `BatchRename` (batch_rename.dfy): the `RenameResult` record, the outcome of
  each item, and the command itself as a method with a loop.

The file system is a parameter. `fs(i, from, to)` is the answer that the
rename of item `i` gets: `IoOk`, or `IoErr(message)`. Passing the item's
position lets the answer depend on anything the earlier renames did.
Examples are an existing destination or a source an earlier item already
moved. No other file-system behaviour is assumed.

## Model

| member | source | states |
|---|---|---|
| `Strings.LastIndexOf` | src-tauri/src/main.rs:31 | `rfind('.')`: the result is a position holding the character with none after it, and it is `None` exactly when the character does not occur |
| `Strings.LastIndexBelow` | src-tauri/src/main.rs:31 | the backwards scan of `rfind` over the first `n` characters: a found position holds the character with none after it below `n`, and nothing is found exactly when the character is absent there |
| `Strings.LastIndexOfUnique` | src-tauri/src/main.rs:31 | any position that holds the character with none after it is the one `rfind` returns |
| `FileName.Extension` | src-tauri/src/main.rs:31-33 | the extension is empty exactly when the name has no dot; otherwise it is one dot followed by dot-free text, and it ends the name |
| `FileName.Stem` | src-tauri/src/main.rs:31-33 | the stem followed by the extension is the whole name (the `split_at` at the last dot) |
| `FileName.NewFileNameAtLastDot` | src-tauri/src/main.rs:31-34 | when the last dot is at `i`, the new name is `prefix + name[..i] + suffix + name[i..]` |
| `FileName.NewFileNameWithoutDot` | src-tauri/src/main.rs:35-38 | a name without a dot becomes `prefix + name + suffix` |
| `FileName.NewFileNameWrapsStem` | src-tauri/src/main.rs:31-38 | both branches are one rule: prefix, stem, suffix, extension |
| `FileName.EmptyAffixesKeepName` | src-tauri/src/main.rs:31-38 | with an empty prefix and an empty suffix, every name is unchanged |
| `FileName.ExtensionPreserved` | src-tauri/src/main.rs:31-34 | a name with a dot keeps its extension, and its new stem is `prefix + old stem + suffix`, even when prefix or suffix contain dots |
| `FileName.OriginalFileName` | src-tauri/src/main.rs:31-38 | the inverse of the naming rule: whatever it recovers maps back to the given new name |
| `FileName.OriginalFileNameDefined` | src-tauri/src/main.rs:31-38 | every new name the rule produces is accepted by the inverse |
| `FileName.RenameRoundTrip` | src-tauri/src/main.rs:31-38 | the old name is recovered from the new name, prefix and suffix |
| `FileName.OriginalFileNameExact` | src-tauri/src/main.rs:31-38 | the inverse returns `name` if and only if `name` maps to the given new name |
| `FileName.NewFileNameInjective` | src-tauri/src/main.rs:31-38 | for a fixed prefix and suffix, two different names never get the same new name |
| `FileName.ExampleWithExtension` | src-tauri/src/main.rs:31-34 | `report.txt` with `2024_` and `_final` becomes `2024_report_final.txt` |
| `FileName.ExampleWithoutExtension` | src-tauri/src/main.rs:35-38 | `README` with prefix `OLD_` becomes `OLD_README` |
| `FileName.ExampleLeadingDot` | src-tauri/src/main.rs:31-34 | `.gitignore` has an empty stem, so prefix `a` and suffix `b` give `ab.gitignore` |
| `PathModel.SplitPath` | src-tauri/src/main.rs:27 | on success, the directory part and the file name rebuild the path, the name holds no separator and is a real component, and the directory part is empty or ends in a separator |
| `PathModel.JoinPath` | src-tauri/src/main.rs:40 | `parent.join(name)` for a directory part that is empty or ends in a separator, as `SplitPath` produces: a name starting with a separator is the whole result, and any other name, including a relative one with separators inside, is appended to the directory part |
| `PathModel.SplitPathComplete` | src-tauri/src/main.rs:27 | the cut after the last separator is the only valid cut, so the split succeeds exactly when that cut leaves a file-name component, and then it returns that cut |
| `PathModel.NewFileNameIsComponent` | src-tauri/src/main.rs:31-40 | a renamed valid name is again a valid component without a separator, provided the prefix and suffix hold no separator |
| `PathModel.RenamedPathKeepsDirectory` | src-tauri/src/main.rs:27-40 | splitting the joined new path gives back the old directory part and the new name |
| `BatchRename.RenameFilesWithPrefixSuffix` | src-tauri/src/main.rs:16-64 | `renamed` counts the successful outcomes; `errors` lists the failure reasons in input order; `renamed + \|errors\| == \|paths\|`; `success` is false exactly when there are paths and none was renamed; an empty input gives `(true, 0, [])` |
| `BatchRename.OutcomesExtend` | src-tauri/src/main.rs:23-56 | processing one more path appends exactly that path's outcome to the earlier ones |
| `BatchRename.AppendOutcome` | src-tauri/src/main.rs:44-54 | one more outcome adds one to the count, or its reason to the end of the errors |
| `BatchRename.OutcomeAccounting` | src-tauri/src/main.rs:23-56 | each outcome is counted exactly once, either as a rename or as an error |
| `BatchRename.ErrorsConcat` | src-tauri/src/main.rs:47-54 | the errors of two runs of outcomes are the first run's errors followed by the second's |
| `BatchRename.ErrorsInInputOrder` | src-tauri/src/main.rs:23-56 | the errors of the first `k` paths come before the errors of the remaining paths |
| `BatchRename.FailureIsReported` | src-tauri/src/main.rs:47-54 | the reason of every failed item is in the error list |
| `BatchRename.ItemOutcomeIsolated` | src-tauri/src/main.rs:23-56 | item `j`'s outcome depends only on its own path and on the file system's answer for item `j`: two batches that agree on both give item `j` the same outcome, whatever their other paths are and whatever happened to them |
| `BatchRename.InvalidPathNotAttempted` | src-tauri/src/main.rs:52-54 | a path with no parent and file name gives `Invalid path: <path>`, whatever the file system would answer |
| `BatchRename.DestinationKeepsDirectory` | src-tauri/src/main.rs:27-40 | the rename target of a valid path has the same directory part, and its file name is the new name |
| `BatchRename.DistinctPathsDistinctDestinations` | src-tauri/src/main.rs:27-43 | two different path strings never get the same target string, when prefix and suffix hold no separator |
| `BatchRename.AbsolutePrefixLeavesDirectory` | src-tauri/src/main.rs:31-40 | a prefix starting with a separator makes the new name absolute, and the target is that name alone: the directory part is dropped |
| `BatchRename.ExampleAbsolutePrefix` | src-tauri/src/main.rs:27-40 | `d/f.txt` with prefix `/p` is renamed to `/pf.txt`, not to `d//pf.txt` |
| `BatchRename.ExampleSubdirectoryPrefix` | src-tauri/src/main.rs:27-40 | `d/f` with prefix `sub/` is renamed to `d/sub/f`, inside a subdirectory of its own directory |
| `BatchRename.EmptyAffixesRenameInPlace` | src-tauri/src/main.rs:31-43 | with an empty prefix and suffix, every valid path is renamed onto itself |

## Behaviour worth knowing

- **Success flag.** Every error sets `success` to false, but lines 58-61 set
  it back to true when at least one rename succeeded. So the command reports
  `success == false` only when there was at least one path and every path
  failed.
- **Unchanged names.** An unchanged name is not skipped. With an empty prefix
  and suffix the code still asks `fs::rename` to move each path onto itself;
  see `EmptyAffixesRenameInPlace`. Whether that succeeds is up to the file
  system.
- **Collisions.** Destinations are not checked before the loop starts, and
  duplicate inputs are not removed. `DistinctPathsDistinctDestinations` shows
  only that two different path strings never get the same target string
  when prefix and suffix hold no separator. A path listed twice gets the
  same target twice. Different strings that name one file (`a/b.txt` and
  `a//b.txt`) get targets that name one file. With the prefix `/`, `d1/f`
  and `d2/f` both go to `/f`. Any prefix starting with `/` sends both to one
  absolute target: `/p` gives `/pf`. What a rename onto an existing file
  does is up to the file system.

## Left out

- The real file system: `fs::rename` is an oracle. Its platform-dependent
  behaviour is not modelled. This covers overwrite versus an error on an
  existing destination, cross-device moves and permissions.
- The text of operating-system error messages: the oracle supplies it as
  `IoErr(message)`. The model only fixes the surrounding `Failed to rename
  <path>: ` and `Invalid path: <path>` formats.
- `to_string_lossy` is taken as the identity. Strings are `seq<char>`, so
  the byte index of `rfind` and `split_at` is a character index here.
- Corner cases of Rust's `Path` are simplified to a cut after the last `/`.
  Four cases differ from Rust:
  - Rust drops trailing separators (`a/b/` has the file name `b`); here that
    path is invalid.
  - Rust normalises repeated separators and `.` components (`a/.` has the
    file name `a`); here a path whose last component is `.` is invalid.
    Rust's `parent()` also drops `.` components inside the path, so
    `a/./f.txt` with prefix `p` goes to `a/pf.txt`. Here the directory part
    is kept as written, and the target is `a/./pf.txt`. Both strings name
    the same file.
  - Rust accepts Windows `\` separators and drive prefixes.
  - The model returns the directory part with its trailing separator. Joining
    a relative name is concatenation, and an absolute name replaces the
    directory part. For paths without repeated separators, `.` components
    or a trailing separator this gives the same joined string as Rust's
    `parent()` plus `join`.
- PathModel.NewFileNameIsComponent: assumes the prefix and the suffix contain
  no `/`. With a separator in them the new name is a path of several
  components: it can lead into a subdirectory, to the parent through `..`,
  or, when it starts with `/`, to an absolute path that drops the directory
  (see `AbsolutePrefixLeavesDirectory`). "Same directory" then no longer
  describes the rename.
- PathModel.RenamedPathKeepsDirectory: assumes no `/` in the prefix or the
  suffix, for the same reason.
- BatchRename.DestinationKeepsDirectory: assumes no `/` in the prefix or the
  suffix, for the same reason.
- BatchRename.DistinctPathsDistinctDestinations: assumes no `/` in the prefix
  or the suffix, for the same reason.
- `renamed` is a `usize` in the code. It can never exceed the number of
  input paths, so no wrap-around is possible and it is modelled as `nat`.
- The Tauri entry point `main`, the `#[tauri::command]` registration, serde
  serialisation, the TypeScript user interface (file dialog and debug log) and
  the version-stamping script are framework or user-interface glue. They hold
  none of the rename logic.

=== FILE: batch_rename.dfy ===
/** The batch prefix/suffix rename command: every input path, in order, is
    cut into directory and file name, the file name is rewritten by
    `NewFileName`, and the file system is asked to rename the old path to the
    directory joined with the new name. Each path yields exactly one outcome
    (a rename counted, or one error message) and no failure stops the batch.

    The file system is not modelled: `fs(i, from, to)` is the answer the
    rename of item `i` gets. Passing the position lets the answer depend on
    everything the earlier renames did. */
module BatchRename {
  import opened Strings
  import opened FileName
  import opened PathModel

  /** What the command hands back to its caller. */
  datatype RenameResult = RenameResult(success: bool, renamed: nat, errors: seq<string>)

  /** The answer of one file-system rename: success, or an error whose
      display text is `message`. */
  datatype IoResult = IoOk | IoErr(message: string)

  /** The file system's answer to the rename of item `i` from one path to another. */
  type RenameOracle = (nat, string, string) -> IoResult

  /** What happened to one input path. */
  datatype Outcome = Renamed(from: string, to: string) | Failed(reason: string)

  function InvalidPathMessage(path: string): string
  {
    "Invalid path: " + path
  }

  function RenameFailedMessage(path: string, error: string): string
  {
    "Failed to rename " + path + ": " + error
  }

  /** The path `path` is renamed to, or `None` when it has no parent and file name. */
  function Destination(path: string, prefix: string, suffix: string): Option<string>
  {
    match SplitPath(path)
    case Some((parent, fileName)) => Some(JoinPath(parent, NewFileName(fileName, prefix, suffix)))
    case None => None
  }

  /** The outcome of item `index`: an invalid path is reported without asking
      the file system; otherwise the file system's answer decides. */
  function ItemOutcome(index: nat, path: string, prefix: string, suffix: string, fs: RenameOracle): Outcome
  {
    match Destination(path, prefix, suffix)
    case None => Failed(InvalidPathMessage(path))
    case Some(newPath) =>
      match fs(index, path, newPath)
      case IoOk => Renamed(path, newPath)
      case IoErr(e) => Failed(RenameFailedMessage(path, e))
  }

  /** One outcome per input path, each at the path's own position. */
  function Outcomes(paths: seq<string>, prefix: string, suffix: string, fs: RenameOracle): seq<Outcome>
  {
    seq(|paths|, i requires 0 <= i < |paths| => ItemOutcome(i, paths[i], prefix, suffix, fs))
  }

  /** The number of successful renames among `outcomes`. */
  function RenamedCount(outcomes: seq<Outcome>): nat
  {
    if outcomes == [] then 0
    else RenamedCount(outcomes[..|outcomes| - 1]) + (if outcomes[|outcomes| - 1].Renamed? then 1 else 0)
  }

  /** The failure reasons among `outcomes`, in order. */
  function Errors(outcomes: seq<Outcome>): seq<string>
  {
    if outcomes == [] then []
    else
      var last := outcomes[|outcomes| - 1];
      Errors(outcomes[..|outcomes| - 1]) + (if last.Failed? then [last.reason] else [])
  }

  /** The rename command. The loop keeps the code's running `success` flag,
      which is false exactly when an error has been recorded; the final step
      sets it back to true when at least one rename succeeded. */
  method RenameFilesWithPrefixSuffix(filePaths: seq<string>, prefix: string, suffix: string, fs: RenameOracle)
    returns (result: RenameResult)
    ensures result.renamed == RenamedCount(Outcomes(filePaths, prefix, suffix, fs))
    ensures result.errors == Errors(Outcomes(filePaths, prefix, suffix, fs))
    ensures result.renamed + |result.errors| == |filePaths|
    ensures result.success <==> result.errors == [] || result.renamed > 0
    ensures !result.success <==> |filePaths| > 0 && result.renamed == 0
    ensures filePaths == [] ==> result == RenameResult(true, 0, [])
  {
    result := RenameResult(true, 0, []);
    var i := 0;
    ghost var done: seq<Outcome> := [];
    while i < |filePaths|
      invariant i <= |filePaths|
      invariant done == Outcomes(filePaths[..i], prefix, suffix, fs)
      invariant result.renamed == RenamedCount(done)
      invariant result.errors == Errors(done)
      invariant result.success <==> result.errors == []
    {
      var filePath := filePaths[i];
      ghost var outcome := ItemOutcome(i, filePath, prefix, suffix, fs);
      OutcomesExtend(filePaths, i, prefix, suffix, fs);
      AppendOutcome(done, outcome);
      match SplitPath(filePath) {
        case Some((parent, fileName)) =>
          var newPath := JoinPath(parent, NewFileName(fileName, prefix, suffix));
          assert Destination(filePath, prefix, suffix) == Some(newPath);
          match fs(i, filePath, newPath) {
            case IoOk =>
              assert outcome == Renamed(filePath, newPath);
              result := result.(renamed := result.renamed + 1);
            case IoErr(e) =>
              assert outcome == Failed(RenameFailedMessage(filePath, e));
              result := result.(success := false, errors := result.errors + [RenameFailedMessage(filePath, e)]);
          }
        case None =>
          assert outcome == Failed(InvalidPathMessage(filePath));
          result := result.(success := false, errors := result.errors + [InvalidPathMessage(filePath)]);
      }
      done := done + [outcome];
      i := i + 1;
    }
    assert filePaths[..i] == filePaths;
    OutcomeAccounting(Outcomes(filePaths, prefix, suffix, fs));
    if result.renamed > 0 && result.errors != [] {
      result := result.(success := true);
    }
  }

  /** Processing one more path appends exactly its own outcome. */
  lemma OutcomesExtend(paths: seq<string>, i: nat, prefix: string, suffix: string, fs: RenameOracle)
    requires i < |paths|
    ensures Outcomes(paths[..i + 1], prefix, suffix, fs)
            == Outcomes(paths[..i], prefix, suffix, fs) + [ItemOutcome(i, paths[i], prefix, suffix, fs)]
  {
  }

  /** Appending one outcome adds it to the count or its reason to the errors. */
  lemma AppendOutcome(outcomes: seq<Outcome>, o: Outcome)
    ensures RenamedCount(outcomes + [o]) == RenamedCount(outcomes) + (if o.Renamed? then 1 else 0)
    ensures Errors(outcomes + [o]) == Errors(outcomes) + (if o.Failed? then [o.reason] else [])
  {
    assert (outcomes + [o])[..|outcomes|] == outcomes;
  }

  /** Every outcome is counted once: as a rename or as one error. */
  lemma {:induction false} OutcomeAccounting(outcomes: seq<Outcome>)
    ensures RenamedCount(outcomes) + |Errors(outcomes)| == |outcomes|
  {
    if outcomes != [] {
      OutcomeAccounting(outcomes[..|outcomes| - 1]);
    }
  }

  /** The errors of a sequence of outcomes are those of its first part
      followed by those of the rest. */
  lemma {:induction false} ErrorsConcat(a: seq<Outcome>, b: seq<Outcome>)
    ensures Errors(a + b) == Errors(a) + Errors(b)
    decreases |b|
  {
    if b == [] {
      assert a + b == a;
    } else {
      var init := b[..|b| - 1];
      assert (a + b)[..|a + b| - 1] == a + init;
      ErrorsConcat(a, init);
    }
  }

  /** Errors are reported in input order: those of the first `k` paths come
      first, then those of the paths after them. */
  lemma {:induction false} ErrorsInInputOrder(paths: seq<string>, k: nat, prefix: string, suffix: string, fs: RenameOracle)
    requires k <= |paths|
    ensures Errors(Outcomes(paths, prefix, suffix, fs))
            == Errors(Outcomes(paths[..k], prefix, suffix, fs)) + Errors(Outcomes(paths, prefix, suffix, fs)[k..])
  {
    var all := Outcomes(paths, prefix, suffix, fs);
    assert Outcomes(paths[..k], prefix, suffix, fs) == all[..k];
    assert all == all[..k] + all[k..];
    ErrorsConcat(all[..k], all[k..]);
  }

  /** A failed outcome leaves its reason in the error list. */
  lemma {:induction false} FailureIsReported(outcomes: seq<Outcome>, j: nat)
    requires j < |outcomes| && outcomes[j].Failed?
    ensures outcomes[j].reason in Errors(outcomes)
    decreases |outcomes|
  {
    if j < |outcomes| - 1 {
      var init := outcomes[..|outcomes| - 1];
      assert init[j] == outcomes[j];
      FailureIsReported(init, j);
    }
  }

  /** Failures are isolated: the outcome of item `j` depends only on its own
      path and on the file system's answer for item `j`, so what happened to
      any other item cannot change it. */
  lemma ItemOutcomeIsolated(paths1: seq<string>, paths2: seq<string>, j: nat, prefix: string, suffix: string,
                             fs1: RenameOracle, fs2: RenameOracle)
    requires j < |paths1| && j < |paths2| && paths1[j] == paths2[j]
    requires forall a, b :: fs1(j, a, b) == fs2(j, a, b)
    ensures Outcomes(paths1, prefix, suffix, fs1)[j] == Outcomes(paths2, prefix, suffix, fs2)[j]
  {
    var d := Destination(paths1[j], prefix, suffix);
    if d.Some? {
      assert fs1(j, paths1[j], d.value) == fs2(j, paths1[j], d.value);
    }
  }

  /** A path without parent and file name is reported as invalid and the
      file system is never asked about it. */
  lemma InvalidPathNotAttempted(index: nat, path: string, prefix: string, suffix: string, fs: RenameOracle)
    requires SplitPath(path).None?
    ensures ItemOutcome(index, path, prefix, suffix, fs) == Failed("Invalid path: " + path)
  {
  }

  /** A valid path is renamed inside its own directory: the file system is
      asked to move it to a path whose directory part is unchanged and whose
      file name is the new name. */
  lemma DestinationKeepsDirectory(path: string, prefix: string, suffix: string)
    requires SplitPath(path).Some?
    requires Separator !in prefix && Separator !in suffix
    ensures Destination(path, prefix, suffix).Some?
    ensures SplitPath(Destination(path, prefix, suffix).value)
            == Some((SplitPath(path).value.0, NewFileName(SplitPath(path).value.1, prefix, suffix)))
  {
    RenamedPathKeepsDirectory(path, prefix, suffix);
  }

  /** Two different path strings never get the same destination string when
      prefix and suffix hold no separator. Equal strings (a path listed twice)
      do share a destination, and so may different strings that name the same
      file on disk. */
  lemma {:induction false} DistinctPathsDistinctDestinations(p1: string, p2: string, prefix: string, suffix: string)
    requires Separator !in prefix && Separator !in suffix
    ensures Destination(p1, prefix, suffix).Some? && Destination(p1, prefix, suffix) == Destination(p2, prefix, suffix)
            ==> p1 == p2
  {
    if SplitPath(p1).Some? && SplitPath(p2).Some? {
      var (d1, n1) := SplitPath(p1).value;
      var (d2, n2) := SplitPath(p2).value;
      DestinationKeepsDirectory(p1, prefix, suffix);
      DestinationKeepsDirectory(p2, prefix, suffix);
      NewFileNameInjective(n1, n2, prefix, suffix);
    }
  }

  /** A prefix starting with a separator makes the new name absolute, so it
      replaces the directory part altogether: the file leaves its directory. */
  lemma AbsolutePrefixLeavesDirectory(path: string, prefix: string, suffix: string)
    requires SplitPath(path).Some?
    requires prefix != [] && prefix[0] == Separator
    ensures Destination(path, prefix, suffix) == Some(NewFileName(SplitPath(path).value.1, prefix, suffix))
  {
    var name := SplitPath(path).value.1;
    NewFileNameWrapsStem(name, prefix, suffix);
    assert NewFileName(name, prefix, suffix)[0] == prefix[0];
  }

  /** The destination of a path, given its split and its new name: the new
      name joined to the directory part. */
  lemma DestinationOfSplit(path: string, dir: string, name: string, prefix: string, suffix: string, newName: string)
    requires IsLastSplit(path, dir, name) && IsFileNameComponent(name)
    requires NewFileName(name, prefix, suffix) == newName
    ensures Destination(path, prefix, suffix) == Some(JoinPath(dir, newName))
  {
    SplitPathComplete(path, dir, name);
  }

  /** `d/f.txt` with prefix `/p` is moved to `/pf.txt`, not to `d//pf.txt`. */
  lemma ExampleAbsolutePrefix()
    ensures Destination("d/f.txt", "/p", "") == Some("/pf.txt")
  {
    var name := "f.txt";
    assert NewFileName(name, "/p", "") == "/pf.txt" by {
      assert IsLastIndex(name, Dot, 1);
      NewFileNameAtLastDot(name, "/p", "", 1);
      assert name[..1] == "f" && name[1..] == ".txt";
      assert "/p" + "f" + "" + ".txt" == "/pf.txt";
    }
    assert IsLastSplit("d/f.txt", "d/", name);
    DestinationOfSplit("d/f.txt", "d/", name, "/p", "", "/pf.txt");
  }

  /** A prefix with a separator inside it moves the file into a subdirectory:
      `d/f` with prefix `sub/` goes to `d/sub/f`. */
  lemma ExampleSubdirectoryPrefix()
    ensures Destination("d/f", "sub/", "") == Some("d/sub/f")
  {
    var name := "f";
    assert NewFileName(name, "sub/", "") == "sub/f" by {
      assert Dot !in name;
      NewFileNameWithoutDot(name, "sub/", "");
    }
    assert IsLastSplit("d/f", "d/", name);
    DestinationOfSplit("d/f", "d/", name, "sub/", "", "sub/f");
    assert "d/" + "sub/f" == "d/sub/f";
  }

  /** With an empty prefix and suffix every valid path is renamed onto itself. */
  lemma EmptyAffixesRenameInPlace(path: string)
    requires SplitPath(path).Some?
    ensures Destination(path, [], []) == Some(path)
  {
    EmptyAffixesKeepName(SplitPath(path).value.1);
  }
}

=== FILE: file_name.dfy ===
/** The prefix/suffix naming rule of the batch rename command: the prefix goes
    in front of the name and the suffix goes in front of the extension, where
    the extension is everything from the LAST dot on (so `.gitignore` has an
    empty stem and the extension `.gitignore`). */
module FileName {
  import opened Strings

  const Dot: char := '.'

  /** Everything from the last dot to the end of `name`; empty when there is no dot. */
  function Extension(name: string): (ext: string)
    ensures ext == [] <==> Dot !in name
    ensures ext != [] ==> ext[0] == Dot && Dot !in ext[1..]
    ensures |ext| <= |name| && name[|name| - |ext|..] == ext
  {
    match LastIndexOf(name, Dot)
    case Some(i) => name[i..]
    case None => []
  }

  /** `name` without its extension. */
  function Stem(name: string): (stem: string)
    ensures stem + Extension(name) == name
  {
    match LastIndexOf(name, Dot)
    case Some(i) => name[..i]
    case None => name
  }

  /** The new file name: with an extension, the suffix goes between the stem
      and the extension; without one, it goes at the end. */
  function NewFileName(name: string, prefix: string, suffix: string): string
  {
    match LastIndexOf(name, Dot)
    case Some(extensionPos) => prefix + name[..extensionPos] + suffix + name[extensionPos..]
    case None => prefix + name + suffix
  }

  /** Both branches of `NewFileName` are one rule: prefix, stem, suffix, extension. */
  lemma NewFileNameWrapsStem(name: string, prefix: string, suffix: string)
    ensures NewFileName(name, prefix, suffix) == prefix + Stem(name) + suffix + Extension(name)
  {
  }

  /** When the name has a last dot at `i`, the text before it is wrapped and
      the text from it on is kept unchanged at the end. */
  lemma NewFileNameAtLastDot(name: string, prefix: string, suffix: string, i: nat)
    requires IsLastIndex(name, Dot, i)
    ensures NewFileName(name, prefix, suffix) == prefix + name[..i] + suffix + name[i..]
  {
    LastIndexOfUnique(name, Dot, i);
  }

  /** A name without a dot is simply wrapped. */
  lemma NewFileNameWithoutDot(name: string, prefix: string, suffix: string)
    requires Dot !in name
    ensures NewFileName(name, prefix, suffix) == prefix + name + suffix
  {
  }

  /** An empty prefix and an empty suffix leave every name unchanged. */
  lemma EmptyAffixesKeepName(name: string)
    ensures NewFileName(name, [], []) == name
  {
  }

  /** A renamed file keeps its extension, and its stem is the old stem
      wrapped in prefix and suffix, whatever dots the prefix and suffix hold. */
  lemma ExtensionPreserved(name: string, prefix: string, suffix: string)
    requires Dot in name
    ensures Extension(NewFileName(name, prefix, suffix)) == Extension(name)
    ensures Stem(NewFileName(name, prefix, suffix)) == prefix + Stem(name) + suffix
  {
    var i := LastIndexOf(name, Dot).value;
    var r := NewFileName(name, prefix, suffix);
    var k := |prefix| + i + |suffix|;
    assert r == (prefix + name[..i] + suffix) + name[i..];
    assert r[k..] == name[i..];
    assert r[..k] == prefix + name[..i] + suffix;
    assert r[k + 1..] == name[i + 1..];
    LastIndexOfUnique(r, Dot, k);
  }

  /** Recovers the name a file had before `NewFileName(_, prefix, suffix)`
      was applied, or `None` when `r` is not such a result. Whatever it
      recovers maps back to `r`. */
  function OriginalFileName(r: string, prefix: string, suffix: string): (o: Option<string>)
    ensures o.Some? ==> NewFileName(o.value, prefix, suffix) == r
  {
    var p := |prefix|;
    var q := |suffix|;
    var dot := LastIndexOf(r, Dot);
    if dot.Some? && p + q <= dot.value && r[..p] == prefix && r[dot.value - q..dot.value] == suffix then
      Some(RecoverKeepingExtension(r, prefix, suffix, dot.value))
    else if p + q <= |r| && r[..p] == prefix && r[|r| - q..] == suffix && Dot !in r[p..|r| - q] then
      Some(RecoverWithoutExtension(r, prefix, suffix))
    else
      None
  }

  /** The first branch of `OriginalFileName`: the text between prefix and
      suffix, followed by the extension of `r`. */
  function RecoverKeepingExtension(r: string, prefix: string, suffix: string, k: nat): (name: string)
    requires IsLastIndex(r, Dot, k)
    requires |prefix| + |suffix| <= k && r[..|prefix|] == prefix && r[k - |suffix|..k] == suffix
    ensures NewFileName(name, prefix, suffix) == r
  {
    RecoveredWithExtension(r, prefix, suffix, k);
    r[|prefix|..k - |suffix|] + r[k..]
  }

  /** The second branch of `OriginalFileName`: the dot-free text between
      prefix and suffix. */
  function RecoverWithoutExtension(r: string, prefix: string, suffix: string): (name: string)
    requires |prefix| + |suffix| <= |r| && r[..|prefix|] == prefix && r[|r| - |suffix|..] == suffix
    requires Dot !in r[|prefix|..|r| - |suffix|]
    ensures NewFileName(name, prefix, suffix) == r
  {
    RecoveredWithoutExtension(r, prefix, suffix);
    r[|prefix|..|r| - |suffix|]
  }

  /** Proof for `RecoverWithoutExtension`: a dot-free middle maps back to `r`. */
  lemma RecoveredWithoutExtension(r: string, prefix: string, suffix: string)
    requires |prefix| + |suffix| <= |r| && r[..|prefix|] == prefix && r[|r| - |suffix|..] == suffix
    requires Dot !in r[|prefix|..|r| - |suffix|]
    ensures NewFileName(r[|prefix|..|r| - |suffix|], prefix, suffix) == r
  {
    var middle := r[|prefix|..|r| - |suffix|];
    NewFileNameWithoutDot(middle, prefix, suffix);
    SliceSplit(r, |prefix|, |r| - |suffix|);
    assert r == r[..|r| - |suffix|] + r[|r| - |suffix|..];
  }

  /** Proof for `RecoverKeepingExtension`: the recovered name keeps the
      extension of `r` and maps back to `r`. */
  lemma RecoveredWithExtension(r: string, prefix: string, suffix: string, k: nat)
    requires IsLastIndex(r, Dot, k)
    requires |prefix| + |suffix| <= k && r[..|prefix|] == prefix && r[k - |suffix|..k] == suffix
    ensures NewFileName(r[|prefix|..k - |suffix|] + r[k..], prefix, suffix) == r
  {
    var stem := r[|prefix|..k - |suffix|];
    var ext := r[k..];
    assert NewFileName(stem + ext, prefix, suffix) == prefix + stem + suffix + ext by {
      assert ext[1..] == r[k + 1..];
      StemBeforeExtension(stem, ext);
      NewFileNameAtLastDot(stem + ext, prefix, suffix, |stem|);
    }
    assert r == prefix + stem + suffix + ext by {
      Reassemble(r, |prefix|, k - |suffix|, k);
    }
  }

  /** In `stem + ext`, where `ext` is a dot followed by no further dot, the
      last dot is the one that starts `ext`. */
  lemma StemBeforeExtension(stem: string, ext: string)
    requires |ext| > 0 && ext[0] == Dot && Dot !in ext[1..]
    ensures IsLastIndex(stem + ext, Dot, |stem|)
    ensures (stem + ext)[..|stem|] == stem && (stem + ext)[|stem|..] == ext
  {
    assert (stem + ext)[|stem| + 1..] == ext[1..];
  }

  /** A string is the concatenation of its pieces between three cut points. */
  lemma Reassemble(r: string, i: nat, j: nat, k: nat)
    requires i <= j <= k <= |r|
    ensures r == r[..i] + r[i..j] + r[j..k] + r[k..]
  {
    SliceSplit(r, j, k);
    SliceSplit(r, i, j);
    assert r == r[..k] + r[k..];
  }

  /** Every result of `NewFileName` is something `OriginalFileName` accepts. */
  lemma {:induction false} OriginalFileNameDefined(name: string, prefix: string, suffix: string)
    ensures OriginalFileName(NewFileName(name, prefix, suffix), prefix, suffix).Some?
  {
    match LastIndexOf(name, Dot)
    case Some(i) => DefinedWithExtension(name, prefix, suffix, i);
    case None => DefinedWithoutExtension(name, prefix, suffix);
  }

  /** A renamed name with an extension passes the first test of `OriginalFileName`. */
  lemma {:induction false} DefinedWithExtension(name: string, prefix: string, suffix: string, i: nat)
    requires IsLastIndex(name, Dot, i)
    ensures OriginalFileName(NewFileName(name, prefix, suffix), prefix, suffix).Some?
  {
    var stem, ext := name[..i], name[i..];
    var front := prefix + stem + suffix;
    var r := front + ext;
    var k := |front|;
    assert NewFileName(name, prefix, suffix) == r by {
      NewFileNameAtLastDot(name, prefix, suffix, i);
    }
    assert LastIndexOf(r, Dot) == Some(k) by {
      assert ext[1..] == name[i + 1..];
      StemBeforeExtension(front, ext);
      LastIndexOfUnique(r, Dot, k);
    }
    assert r[..|prefix|] == prefix && r[k - |suffix|..k] == suffix by {
      assert r == prefix + stem + suffix + ext;
    }
  }

  /** A renamed name without a dot passes the second test of `OriginalFileName`. */
  lemma DefinedWithoutExtension(name: string, prefix: string, suffix: string)
    requires Dot !in name
    ensures OriginalFileName(NewFileName(name, prefix, suffix), prefix, suffix).Some?
  {
    var r := prefix + name + suffix;
    var p, q := |prefix|, |suffix|;
    NewFileNameWithoutDot(name, prefix, suffix);
    assert r[..p] == prefix && r[p..|r| - q] == name && r[|r| - q..] == suffix;
  }

  /** A dot-free `n` followed by `tail` never equals `s + tail + e` when `e`
      starts with a dot: the step behind injectivity, by induction on `tail`. */
  lemma {:induction false} DotlessNeverMatchesDotted(n: string, s: string, tail: string, e: string)
    requires Dot !in n
    requires |e| > 0 && e[0] == Dot
    ensures n + tail != s + tail + e
    decreases |tail|
  {
    if |n| != |s| + |e| {
      assert |n + tail| != |s + tail + e|;
    } else if |tail| < |e| {
      var k := |s| + |tail|;
      assert (n + tail)[k] == n[k];
      assert (s + tail + e)[k] == e[0];
      assert n[k] in n;
    } else {
      var m := |tail| - |e|;
      var shorter := tail[..m];
      if tail[m..] == e {
        assert tail == shorter + e;
        DotlessNeverMatchesDotted(n, s, shorter, e);
        assert n + tail == (n + shorter) + e;
        assert s + tail + e == (s + shorter + e) + e;
        assert ((n + shorter) + e)[..|n + shorter|] == n + shorter;
        assert ((s + shorter + e) + e)[..|s + shorter + e|] == s + shorter + e;
      } else {
        assert (n + tail)[|n + tail| - |e|..] == tail[m..];
        assert (s + tail + e)[|s + tail + e| - |e|..] == e;
      }
    }
  }

  /** For a fixed prefix and suffix, distinct names get distinct new names. */
  lemma NewFileNameInjective(n1: string, n2: string, prefix: string, suffix: string)
    ensures NewFileName(n1, prefix, suffix) == NewFileName(n2, prefix, suffix) ==> n1 == n2
  {
    match (LastIndexOf(n1, Dot), LastIndexOf(n2, Dot))
    case (None, None) =>
      UnwrapAffixes(n1, n2, prefix, suffix);
    case (Some(i1), Some(i2)) =>
      ExtensionPreserved(n1, prefix, suffix);
      ExtensionPreserved(n2, prefix, suffix);
      UnwrapAffixes(Stem(n1), Stem(n2), prefix, suffix);
    case (None, Some(i2)) =>
      DotlessNeverRenamedLikeDotted(n1, n2, prefix, suffix);
    case (Some(i1), None) =>
      DotlessNeverRenamedLikeDotted(n2, n1, prefix, suffix);
  }

  /** Wrapping in the same prefix and suffix is injective. */
  lemma UnwrapAffixes(a: string, b: string, prefix: string, suffix: string)
    ensures prefix + a + suffix == prefix + b + suffix ==> a == b
  {
    var ra := prefix + a + suffix;
    var rb := prefix + b + suffix;
    assert ra[|prefix|..|ra| - |suffix|] == a;
    assert rb[|prefix|..|rb| - |suffix|] == b;
  }

  /** A name without a dot and a name with one never get the same new name. */
  lemma DotlessNeverRenamedLikeDotted(plain: string, dotted: string, prefix: string, suffix: string)
    requires Dot !in plain && Dot in dotted
    ensures NewFileName(plain, prefix, suffix) != NewFileName(dotted, prefix, suffix)
  {
    var i := LastIndexOf(dotted, Dot).value;
    var stem, ext := dotted[..i], dotted[i..];
    NewFileNameAtLastDot(dotted, prefix, suffix, i);
    NewFileNameWithoutDot(plain, prefix, suffix);
    DotlessNeverMatchesDotted(plain, stem, suffix, ext);
    PrefixCancels(prefix, plain + suffix, stem + suffix + ext);
    assert prefix + plain + suffix == prefix + (plain + suffix);
    assert prefix + stem + suffix + ext == prefix + (stem + suffix + ext);
  }

  /** Equal strings with a common prefix are equal after it. */
  lemma PrefixCancels(prefix: string, a: string, b: string)
    ensures prefix + a == prefix + b ==> a == b
  {
    assert (prefix + a)[|prefix|..] == a;
    assert (prefix + b)[|prefix|..] == b;
  }

  /** Renaming loses nothing: the old name is recovered from the new one. */
  lemma RenameRoundTrip(name: string, prefix: string, suffix: string)
    ensures OriginalFileName(NewFileName(name, prefix, suffix), prefix, suffix) == Some(name)
  {
    var r := NewFileName(name, prefix, suffix);
    OriginalFileNameDefined(name, prefix, suffix);
    NewFileNameInjective(OriginalFileName(r, prefix, suffix).value, name, prefix, suffix);
  }

  /** `OriginalFileName` recovers exactly the names that map to `r`. */
  lemma {:induction false} OriginalFileNameExact(r: string, name: string, prefix: string, suffix: string)
    ensures OriginalFileName(r, prefix, suffix) == Some(name) <==> NewFileName(name, prefix, suffix) == r
  {
    RenameRoundTrip(name, prefix, suffix);
  }

  /** Worked case: the suffix lands before the extension. */
  lemma ExampleWithExtension()
    ensures NewFileName("report.txt", "2024_", "_final") == "2024_report_final.txt"
  {
    assert IsLastIndex("report.txt", Dot, 6);
    NewFileNameAtLastDot("report.txt", "2024_", "_final", 6);
    assert "report.txt"[..6] == "report" && "report.txt"[6..] == ".txt";
  }

  /** Worked case: a name without a dot is wrapped. */
  lemma ExampleWithoutExtension()
    ensures NewFileName("README", "OLD_", "") == "OLD_README"
  {
    assert Dot !in "README";
    NewFileNameWithoutDot("README", "OLD_", "");
  }

  /** Worked case: a leading-dot name has an empty stem, so the prefix and
      suffix both go in front of it. */
  lemma ExampleLeadingDot()
    ensures NewFileName(".gitignore", "a", "b") == "ab.gitignore"
  {
    assert IsLastIndex(".gitignore", Dot, 0);
    NewFileNameAtLastDot(".gitignore", "a", "b", 0);
    assert ".gitignore"[..0] == "" && ".gitignore"[0..] == ".gitignore";
  }
}

=== FILE: path_model.dfy ===
/** A simplified model of the `std::path::Path` operations the rename command
    uses: `parent()` together with `file_name()`, and `join`. A path is cut
    after its last `/`; the text before the cut (separator included) is the
    directory part, the text after it is the file name. */
module PathModel {
  import opened Strings
  import opened FileName

  const Separator: char := '/'

  /** A final component `Path::file_name` reports: not empty and not a
      `.` or `..` reference. */
  predicate IsFileNameComponent(name: string)
  {
    name != [] && name != "." && name != ".."
  }

  /** `dir + name` is `path` cut right after its last separator. */
  predicate IsLastSplit(path: string, dir: string, name: string)
  {
    path == dir + name && Separator !in name && (dir == [] || dir[|dir| - 1] == Separator)
  }

  /** The directory part and file name of `path`, or `None` when the path has
      no file-name component (its last component is empty, `.` or `..`). */
  function SplitPath(path: string): (r: Option<(string, string)>)
    ensures r.Some? ==> IsLastSplit(path, r.value.0, r.value.1) && IsFileNameComponent(r.value.1)
  {
    match LastIndexOf(path, Separator)
    case Some(i) =>
      var name := path[i + 1..];
      assert path == path[..i + 1] + name;
      if IsFileNameComponent(name) then Some((path[..i + 1], name)) else None
    case None =>
      if IsFileNameComponent(path) then Some(([], path)) else None
  }

  /** `parent.join(name)` for a directory part produced by `SplitPath`: a
      relative name is appended to the directory part, while an absolute name
      (one starting with a separator) replaces it, as `Path::join` does. */
  function JoinPath(dir: string, name: string): (joined: string)
    requires dir == [] || dir[|dir| - 1] == Separator
    ensures name != [] && name[0] == Separator ==> joined == name
    ensures name == [] || name[0] != Separator ==> joined == dir + name
    ensures Separator !in name ==> joined == dir + name
  {
    if name != [] && name[0] == Separator then name else dir + name
  }

  /** The cut after the last separator is the only one, so `SplitPath` succeeds
      exactly when that cut leaves a file-name component, and then returns it. */
  lemma SplitPathComplete(path: string, dir: string, name: string)
    requires IsLastSplit(path, dir, name)
    ensures SplitPath(path).Some? <==> IsFileNameComponent(name)
    ensures SplitPath(path).Some? ==> SplitPath(path).value == (dir, name)
  {
    if dir == [] {
      assert path == name;
      assert LastIndexOf(path, Separator).None?;
    } else {
      var i := |dir| - 1;
      assert path[i + 1..] == name;
      assert IsLastIndex(path, Separator, i);
      LastIndexOfUnique(path, Separator, i);
      assert path[..i + 1] == dir;
    }
  }

  /** Renaming a valid file name never produces a separator, an empty name,
      or a `.`/`..` reference, as long as prefix and suffix hold no separator. */
  lemma NewFileNameIsComponent(name: string, prefix: string, suffix: string)
    requires IsFileNameComponent(name) && Separator !in name
    requires Separator !in prefix && Separator !in suffix
    ensures IsFileNameComponent(NewFileName(name, prefix, suffix))
    ensures Separator !in NewFileName(name, prefix, suffix)
  {
    NewFileNameCharacters(name, prefix, suffix);
    if |name| < 3 {
      var k := if name[0] != Dot then 0 else 1;
      assert name[k] != Dot && name[k] in name;
    }
  }

  /** The new name keeps every character of the old one, adds only those of
      the prefix and suffix, and is never shorter. */
  lemma NewFileNameCharacters(name: string, prefix: string, suffix: string)
    ensures forall c :: c in name ==> c in NewFileName(name, prefix, suffix)
    ensures forall c :: c in NewFileName(name, prefix, suffix) ==> c in prefix || c in name || c in suffix
    ensures |NewFileName(name, prefix, suffix)| >= |name|
  {
    NewFileNameWrapsStem(name, prefix, suffix);
    var stem, ext := Stem(name), Extension(name);
    assert name == stem + ext;
    assert NewFileName(name, prefix, suffix) == prefix + stem + suffix + ext;
  }

  /** The renamed path lies in the same directory as the old one: only the
      final component changes. */
  lemma {:induction false} RenamedPathKeepsDirectory(path: string, prefix: string, suffix: string)
    requires SplitPath(path).Some?
    requires Separator !in prefix && Separator !in suffix
    ensures var (dir, name) := SplitPath(path).value;
            SplitPath(JoinPath(dir, NewFileName(name, prefix, suffix))) == Some((dir, NewFileName(name, prefix, suffix)))
  {
    var (dir, name) := SplitPath(path).value;
    var newName := NewFileName(name, prefix, suffix);
    NewFileNameIsComponent(name, prefix, suffix);
    SplitPathComplete(JoinPath(dir, newName), dir, newName);
  }
}

=== FILE: strings.dfy ===
/** Small string helpers shared by the file-name and path models.
    Strings are `seq<char>`; Rust's lossy UTF-8 conversion is taken to be
    the identity, so a byte index of `str::rfind` is a character index here. */
module Strings {

  datatype Option<+T> = None | Some(value: T)

  /** `i` is the position of the last occurrence of `c` in `s`. */
  predicate IsLastIndex(s: string, c: char, i: nat)
  {
    i < |s| && s[i] == c && c !in s[i + 1..]
  }

  /** The position of the last occurrence of `c` in `s`, as `str::rfind`
      with a single-character pattern: `None` when `c` does not occur. */
  function LastIndexOf(s: string, c: char): (r: Option<nat>)
    ensures r.Some? ==> IsLastIndex(s, c, r.value)
    ensures r.None? <==> c !in s
  {
    assert s[..|s|] == s;
    LastIndexBelow(s, c, |s|)
  }

  /** The last occurrence of `c` among the first `n` characters of `s`,
      scanning backwards from position `n - 1`. */
  function LastIndexBelow(s: string, c: char, n: nat): (r: Option<nat>)
    requires n <= |s|
    ensures r.Some? ==> r.value < n && s[r.value] == c && c !in s[r.value + 1..n]
    ensures r.None? <==> c !in s[..n]
    decreases n
  {
    if n == 0 then None
    else if s[n - 1] == c then Some(n - 1)
    else
      assert s[..n] == s[..n - 1] + [s[n - 1]];
      var r := LastIndexBelow(s, c, n - 1);
      assert r.Some? ==> s[r.value + 1..n] == s[r.value + 1..n - 1] + [s[n - 1]];
      r
  }

  /** The last occurrence is unique: any position that is a last occurrence
      is the one `LastIndexOf` finds. */
  lemma LastIndexOfUnique(s: string, c: char, i: nat)
    requires IsLastIndex(s, c, i)
    ensures LastIndexOf(s, c) == Some(i)
  {
    var j := LastIndexOf(s, c).value;
    NoneAfterLast(s, c, i);
    NoneAfterLast(s, c, j);
  }

  /** No occurrence of `c` lies after a last occurrence. */
  lemma NoneAfterLast(s: string, c: char, i: nat)
    requires IsLastIndex(s, c, i)
    ensures forall k :: i < k < |s| ==> s[k] != c
  {
    forall k | i < k < |s|
      ensures s[k] != c
    {
      assert s[k] == s[i + 1..][k - i - 1];
    }
  }

  /** A prefix of `s` is the shorter prefix followed by the slice between them. */
  lemma SliceSplit<T>(s: seq<T>, i: nat, j: nat)
    requires i <= j <= |s|
    ensures s[..j] == s[..i] + s[i..j]
  {
  }
}
